=== FILE: README.md ===
# Customer service with an idempotent PUT, in Dafny

This project models the core of a small Spring customer-CRUD service. It covers two parts.

- **`CustomerService`** is a sequential state machine. The state is the JPA repository, a finite map from `Long` id to `Customer`, plus the idempotency store, a map from client token to the customer recorded for that token. Each operation is a pure transition. It returns `Ok(value)`, or `NotFound(id)` where the Java code throws `CustomerNotFoundException`, together with the next state. The operations are create, get, get-all, delete, PATCH (`UpdateCustomer`) and the PUT guarded by an optional `Idempotency-Key` (`ReplaceCustomer`). A `Request` datatype with `Apply`/`Run` strings operations together. This lets the first-writer-wins property be stated over any sequence of requests.
- **`ErrorResponses`** models `GlobalExceptionHandler`. It is a pure function from a failure to an error body: an error label, a message and a status. The failure is a missing customer, a list of field validation errors, or any other runtime exception.

Supporting modules:
- `Options` makes Java's nullable references explicit.
- `Customers` holds the `Long` range and the `Customer` record.
- `Decimal` renders a `long` the way Java's string concatenation does, and holds a parser that inverts that rendering.
- `ServiceResponses` connects the two parts: a service failure as the client receives it.

Modelling choices:
- The Java code records the request body in the idempotency store and only afterwards calls `setId(id)` on the same object. The recorded reply therefore carries the path id. The model records the id-forced value directly.
- The idempotency key is checked before the repository is consulted. A cache hit therefore returns the recorded customer even when the path id is missing or differs.
- Reference identity (`assertSame` in the tests) becomes value equality.
- The repository's IDENTITY id generation is a `freshId` parameter of `CreateCustomer`, which must not already be a key of the store.
- `findAll` promises no order. `GetAllCustomers` returns the stored customers in an unspecified order and states that the result is exactly the stored customers, each once.
- `GetAllCustomers` requires `Valid`: every stored customer carries its own key as its id. `RunValid` proves that every state reachable from a valid one is valid.
- The reply holds the customer and the `method` label only; there is no cache-hit flag.
- The error labels in `GlobalExceptionHandler` are exactly the reason phrases of the HTTP statuses they are sent with. The model states this as `r.error == r.status.ReasonPhrase()`, with the phrases of section 15 of RFC 9110.

## Model

| member | source | states |
|---|---|---|
| CustomerService.CheckIdempotency | src/main/java/com/spring_base/fundamentals/service/CustomerService.java:125-138 | a recorded customer is found exactly when a key was sent and is in the store, and it is the one recorded for that key |
| CustomerService.StoreIdempotency | src/main/java/com/spring_base/fundamentals/service/CustomerService.java:140-144 | putIfAbsent: every earlier record is kept unchanged; a sent key becomes recorded, with the new value only if it was absent; no key means no change |
| CustomerService.CreateCustomer | src/main/java/com/spring_base/fundamentals/service/CustomerService.java:22-32 | the saved customer gets the fresh id and keeps name and email; it is stored under that id; no other entry and no token changes (`WithId` sets the generated id) |
| CustomerService.DeleteCustomer | src/main/java/com/spring_base/fundamentals/service/CustomerService.java:34-46 | succeeds exactly when the id is stored; returns the prior customer and removes only that id; a missing id gives NotFound(id) and no change |
| CustomerService.GetCustomer | src/main/java/com/spring_base/fundamentals/service/CustomerService.java:52-68 | never changes the state; returns the stored customer labelled "getCustomer" exactly when the id is stored, otherwise NotFound(id) |
| CustomerService.GetAllCustomers | src/main/java/com/spring_base/fundamentals/service/CustomerService.java:48-50 | the result has one entry per stored customer: every stored customer appears, every entry is the customer stored under its own id, and no entry repeats |
| CustomerService.Merge | src/main/java/com/spring_base/fundamentals/service/CustomerService.java:111-112 | a non-null name or email in the patch overwrites that field, a null one keeps it; the id is never changed |
| CustomerService.UpdateCustomer | src/main/java/com/spring_base/fundamentals/service/CustomerService.java:104-123 | PATCH succeeds exactly when the id is stored; it stores and returns the merged customer and leaves every other entry and all tokens unchanged; a missing id gives NotFound(id) and no change |
| CustomerService.ReplaceCustomer | src/main/java/com/spring_base/fundamentals/service/CustomerService.java:70-102 | a recorded key returns its customer and changes nothing, whatever id and body; otherwise a missing id gives NotFound(id) and no change, so the key stays unrecorded; otherwise the body with the path id is stored, returned and recorded for a sent key, and nothing else changes; without a key the idempotency store is untouched; the path id is forced by `WithId`, the `setId` of line 91 |
| CustomerService.Apply | src/main/java/com/spring_base/fundamentals/service/CustomerService.java:20-144 | serving any one request keeps every recorded token's value and keeps the id invariant |
| CustomerService.TokensPersist | src/main/java/com/spring_base/fundamentals/service/CustomerService.java:140-144 | first writer wins: after any sequence of requests, every previously recorded token is still recorded with the same value |
| CustomerService.RunValid | src/main/java/com/spring_base/fundamentals/service/CustomerService.java:22-123 | every sequence of requests keeps each stored customer keyed by its own id and each recorded reply carrying an id |
| CustomerService.ReplayAfterRun | src/main/java/com/spring_base/fundamentals/service/CustomerService.java:75-101 | after a successful replace under a new token, and any later requests (PATCH and DELETE included), a replace with that token returns the identical reply and changes nothing |
| CustomerService.KeyedReplaceKeepsFirst | src/main/java/com/spring_base/fundamentals/service/CustomerService.java:75-101 | two replaces under one new token with bodies A then B both return A with the path id; the store holds A's effect and the token maps to it |
| CustomerService.TokenlessLastWriteWins | src/main/java/com/spring_base/fundamentals/service/CustomerService.java:88-101 | two tokenless replaces both apply and return their own body; the second body is what stays stored, and the idempotency store is unchanged |
| CustomerService.FullPatchIsReplace | src/main/java/com/spring_base/fundamentals/service/CustomerService.java:104-113 | a PATCH that sets both name and email leaves the same state as a tokenless PUT of that body, and the two succeed together |
| CustomerService.MergeIdempotent | src/main/java/com/spring_base/fundamentals/service/CustomerService.java:111-112 | applying the same patch twice equals applying it once |
| CustomerService.EmptyPatchKeeps | src/main/java/com/spring_base/fundamentals/service/CustomerService.java:111-112 | a patch whose name and email are both null leaves the customer unchanged |
| CustomerService.CreateThenGet | src/main/java/com/spring_base/fundamentals/service/CustomerService.java:22-32 | a created customer is returned by a later get of its new id |
| CustomerService.DeleteThenGet | src/main/java/com/spring_base/fundamentals/service/CustomerService.java:34-46 | after a delete, both a get and a second delete of that id fail with NotFound(id) |
| Decimal.NatToString | src/main/java/com/spring_base/fundamentals/exception/CustomerNotFoundException.java:6 | the rendering of a non-negative long is non-empty, all digits, and has no leading zero |
| Decimal.NatRoundTrip | src/main/java/com/spring_base/fundamentals/exception/CustomerNotFoundException.java:6 | the digits of a non-negative number read back as that number |
| Decimal.IntToString | src/main/java/com/spring_base/fundamentals/exception/CustomerNotFoundException.java:6 | the rendering of any long, negative ones and Long.MIN_VALUE included, parses back to that long, starts with '-' exactly when the long is negative, and writes the magnitude in canonical form: digits only, no leading zero |
| Decimal.IntToStringInjective | src/main/java/com/spring_base/fundamentals/exception/CustomerNotFoundException.java:6 | distinct ids never render alike |
| ErrorResponses.NotFoundMessage | src/main/java/com/spring_base/fundamentals/exception/CustomerNotFoundException.java:5-7 | the message is exactly "Customer not found: " followed by the decimal id |
| ErrorResponses.NotFoundMessageRoundTrip | src/main/java/com/spring_base/fundamentals/exception/CustomerNotFoundException.java:5-7 | the id can be read back out of the not-found message |
| ErrorResponses.NotFoundMessageInjective | src/main/java/com/spring_base/fundamentals/exception/CustomerNotFoundException.java:5-7 | two ids share a not-found message only if they are equal |
| ErrorResponses.NotFoundMessage42 | src/main/java/com/spring_base/fundamentals/exception/CustomerNotFoundException.java:5-7 | the message for id 42 is exactly "Customer not found: 42" |
| ErrorResponses.FieldLines | src/main/java/com/spring_base/fundamentals/exception/GlobalExceptionHandler.java:28-31 | one entry per field error, in the original order, each "field: defaultMessage" (built by `FieldLine`, with a null default message written as "null" by `Concatenated`, as Java string concatenation does) |
| ErrorResponses.FieldLineRoundTrip | src/main/java/com/spring_base/fundamentals/exception/GlobalExceptionHandler.java:30 | for a field name without ':' the entry splits back into the field and its message ("null" for a null default message) |
| ErrorResponses.NullDefaultMessageLine | src/main/java/com/spring_base/fundamentals/exception/GlobalExceptionHandler.java:30 | field errors name (no default message) and email ("bad email") give exactly ["name: null", "email: bad email"] |
| ErrorResponses.HandleCustomerNotFound | src/main/java/com/spring_base/fundamentals/exception/GlobalExceptionHandler.java:15-23 | error "Not Found" with status NOT_FOUND; the message is the exception's message, from which the id reads back |
| ErrorResponses.HandleValidationError | src/main/java/com/spring_base/fundamentals/exception/GlobalExceptionHandler.java:25-37 | error "Bad Request" with status BAD_REQUEST; the message is a list of the same length as the field errors, entry i being "field: defaultMessage" of error i |
| ErrorResponses.HandleRuntimeException | src/main/java/com/spring_base/fundamentals/exception/GlobalExceptionHandler.java:39-47 | error "Internal Server Error" with status INTERNAL_SERVER_ERROR; the message is the exception's message when present, otherwise "Unexpected error" |
| ErrorResponses.Handle | src/main/java/com/spring_base/fundamentals/exception/GlobalExceptionHandler.java:12-49 | each failure kind gets its own status (not-found 404, validation 400, other 500), the label is always the status's reason phrase, and only validation failures get a list message |
| ServiceResponses.ServiceNotFoundResponse | src/main/java/com/spring_base/fundamentals/service/CustomerService.java:57-58 | a get of a missing id turns into a 404 whose message is "Customer not found: " followed by that id |

## Left out

- Elapsed time: the `elapsedMs` entries read the wall clock, so replies carry only the customer and the `method` label. Logging is left out as well.
- Concurrency: the idempotency map is a `ConcurrentHashMap`, but the model is sequential. The race between `checkIdempotency` and `putIfAbsent` is not modelled. In that race, a losing concurrent writer still saves and returns its own body, so no single-flight guarantee is claimed.
- CreateCustomer: a request body that already carries an id makes the JPA repository merge rather than insert. The model always inserts under a fresh id. Which fresh id the database picks is a parameter.
- GetAllCustomers: requires the id invariant `Valid`. The repository keeps this invariant, and `RunValid` proves it for every reachable state.
- The JPA repository itself is an abstract finite map. Object identity and aliasing are replaced by value equality.
- Repository writes never fail in the model. In the code, `storeIdempotency` runs before `save`. If `save` throws, the token stays recorded with a value that was never stored, and a retry with that token returns it as a success. The model cannot show this.
- `CepService`, `CepController`, `CustomerController`, `ViaCepHealthIndicator`, `ApiProperties` and the application bootstrap are left out. They are network I/O, concurrency or framework dispatch, and their only pure content is URL concatenation.
- Bean Validation (`@NotBlank`, `@Email`) is left out. For POST and PUT, whose controller parameters carry `@Valid`, it runs before the service. It only shows up here as the list of field errors given to the handler.
- UpdateCustomer: the PATCH body carries no `@Valid`, so nothing validates it before the service. The only check left is the entity's own `@NotBlank`/`@Email`, applied by the JPA provider when `save(existing)` flushes. A blank name or malformed email then fails with a runtime exception, which the handler answers with a 500. The model does not model this save-time validation, and its `UpdateCustomer` stores such a merge.
- Handle: Spring's choice of handler by most specific exception type is reduced to the three failure kinds. A `MethodArgumentNotValidException` contributes only its field errors, which is all the handler reads.

=== FILE: customer_service.dfy ===
/** The customer service as a sequential state machine: the repository is a finite
    map from identifier to customer, the idempotency store a map from client token
    to the customer recorded for it. Every operation is a pure transition that
    yields a result (`Ok`, or `NotFound` where the service throws
    `CustomerNotFoundException`) together with the next state. */
module CustomerService {
  import opened Options
  import opened Customers

  datatype State = State(store: map<Long, Customer>, tokens: map<string, Customer>)

  datatype Result<T> = Ok(value: T) | NotFound(id: Long)

  /** What one operation returns, paired with the state it leaves behind. */
  datatype Step<T> = Step(result: Result<T>, state: State)

  /** The response map of the single-customer endpoints, without its elapsed time. */
  datatype Reply = Reply(customer: Customer, operation: string)

  /** Every stored customer carries its own key as identifier, and every recorded
      reply carries an identifier. Every reachable state satisfies this (`RunValid`). */
  ghost predicate Valid(s: State) {
    && (forall k :: k in s.store ==> s.store[k].id == Some(k))
    && (forall t :: t in s.tokens ==> s.tokens[t].id.Some?)
  }

  /** `a` and `b` agree on every key other than `id`. */
  ghost predicate SameExcept(a: map<Long, Customer>, b: map<Long, Customer>, id: Long) {
    forall k :: k != id ==> (k in a <==> k in b) && (k in a ==> a[k] == b[k])
  }

  /** No token that `a` records is lost or given another value in `b`. */
  ghost predicate Extends(a: map<string, Customer>, b: map<string, Customer>) {
    forall t :: t in a ==> t in b && b[t] == a[t]
  }

  // ---------------------------------------------------------------------------
  // The idempotency guard

  /** The recorded customer for `key`, if a key was sent and has been seen before. */
  function CheckIdempotency(tokens: map<string, Customer>, key: Option<string>): (r: Option<Customer>)
    ensures r.Some? <==> key.Some? && key.value in tokens
    ensures r.Some? ==> r.value == tokens[key.value]
  {
    if key.None? then None
    else if key.value in tokens then Some(tokens[key.value])
    else None
  }

  /** First writer wins: a missing key changes nothing, a present key gets
      `result` only if nothing was recorded for it yet. */
  function StoreIdempotency(tokens: map<string, Customer>, key: Option<string>, result: Customer): (r: map<string, Customer>)
    ensures Extends(tokens, r)
    ensures r.Keys == if key.Some? then tokens.Keys + {key.value} else tokens.Keys
    ensures key.Some? && key.value !in tokens ==> r[key.value] == result
  {
    if key.None? then tokens
    else if key.value in tokens then tokens
    else tokens[key.value := result]
  }

  // ---------------------------------------------------------------------------
  // The operations

  /** POST: the repository inserts the customer under a fresh identifier. */
  function CreateCustomer(s: State, customer: Customer, freshId: Long): (r: Step<Customer>)
    requires freshId !in s.store
    ensures r.result.Ok?
    ensures r.result.value.id == Some(freshId)
    ensures r.result.value.name == customer.name && r.result.value.email == customer.email
    ensures freshId in r.state.store && r.state.store[freshId] == r.result.value
    ensures SameExcept(s.store, r.state.store, freshId)
    ensures r.state.tokens == s.tokens
  {
    var saved := WithId(customer, freshId);
    Step(Ok(saved), State(s.store[freshId := saved], s.tokens))
  }

  /** DELETE: the removed customer, or `NotFound` when there is none. */
  function DeleteCustomer(s: State, id: Long): (r: Step<Customer>)
    ensures r.result.Ok? <==> id in s.store
    ensures r.result.NotFound? ==> r.result.id == id && r.state == s
    ensures r.result.Ok? ==> r.result.value == s.store[id]
    ensures r.result.Ok? ==> id !in r.state.store && SameExcept(s.store, r.state.store, id)
    ensures r.state.tokens == s.tokens
  {
    if id !in s.store then Step(NotFound(id), s)
    else Step(Ok(s.store[id]), State(s.store - {id}, s.tokens))
  }

  /** GET by id: a pure read. */
  function GetCustomer(s: State, id: Long): (r: Step<Reply>)
    ensures r.state == s
    ensures r.result.Ok? <==> id in s.store
    ensures r.result.NotFound? ==> r.result.id == id
    ensures r.result.Ok? ==> r.result.value == Reply(s.store[id], "getCustomer")
  {
    if id !in s.store then Step(NotFound(id), s)
    else Step(Ok(Reply(s.store[id], "getCustomer")), s)
  }

  /** `all` lists the customers stored under the keys `seen`, each exactly once. */
  ghost predicate Collected(store: map<Long, Customer>, all: seq<Customer>, seen: set<Long>) {
    && |all| == |seen|
    && (forall k :: k in seen ==> k in store && store[k] in all)
    && (forall i :: 0 <= i < |all| ==>
          all[i].id.Some? && all[i].id.value in seen && store[all[i].id.value] == all[i])
    && (forall i, j :: 0 <= i < j < |all| ==> all[i] != all[j])
  }

  lemma CollectOne(s: State, all: seq<Customer>, seen: set<Long>, k: Long)
    requires Valid(s)
    requires Collected(s.store, all, seen)
    requires k in s.store && k !in seen
    ensures Collected(s.store, all + [s.store[k]], seen + {k})
  {
  }

  /** GET all: every stored customer exactly once, in the repository's own
      (unspecified) order. */
  method GetAllCustomers(s: State) returns (all: seq<Customer>)
    requires Valid(s)
    ensures |all| == |s.store|
    ensures forall k :: k in s.store ==> s.store[k] in all
    ensures forall i :: 0 <= i < |all| ==>
              all[i].id.Some? && all[i].id.value in s.store && s.store[all[i].id.value] == all[i]
    ensures forall i, j :: 0 <= i < j < |all| ==> all[i] != all[j]
  {
    all := [];
    var pending := s.store.Keys;
    ghost var seen: set<Long> := {};
    while pending != {}
      invariant seen + pending == s.store.Keys
      invariant seen !! pending
      invariant Collected(s.store, all, seen)
      decreases pending
    {
      var k :| k in pending;
      CollectOne(s, all, seen, k);
      all := all + [s.store[k]];
      pending := pending - {k};
      seen := seen + {k};
    }
    assert seen == s.store.Keys;
  }

  /** The PATCH merge: a non-null field of `partial` overwrites, a null one keeps. */
  function Merge(existing: Customer, partial: Customer): (r: Customer)
    ensures r.id == existing.id
    ensures partial.name.Some? ==> r.name == partial.name
    ensures partial.name.None? ==> r.name == existing.name
    ensures partial.email.Some? ==> r.email == partial.email
    ensures partial.email.None? ==> r.email == existing.email
  {
    var named := if partial.name.Some? then existing.(name := partial.name) else existing;
    if partial.email.Some? then named.(email := partial.email) else named
  }

  /** PATCH: merges the non-null fields of `partial` into the stored customer. */
  function UpdateCustomer(s: State, id: Long, partial: Customer): (r: Step<Reply>)
    ensures r.result.Ok? <==> id in s.store
    ensures r.result.NotFound? ==> r.result.id == id && r.state == s
    ensures r.result.Ok? ==>
              && r.result.value == Reply(Merge(s.store[id], partial), "updateCustomer")
              && id in r.state.store && r.state.store[id] == r.result.value.customer
              && SameExcept(s.store, r.state.store, id)
    ensures r.state.tokens == s.tokens
  {
    if id !in s.store then Step(NotFound(id), s)
    else
      var merged := Merge(s.store[id], partial);
      Step(Ok(Reply(merged, "updateCustomer")), State(s.store[id := merged], s.tokens))
  }

  /** PUT guarded by an optional idempotency key. The key is consulted before the
      repository; on a miss the id-forced new value is both recorded for the key
      and saved. */
  function ReplaceCustomer(s: State, key: Option<string>, id: Long, newData: Customer): (r: Step<Reply>)
    // a cache hit is a pure read, whatever `id` and `newData` are
    ensures key.Some? && key.value in s.tokens ==>
              r == Step(Ok(Reply(s.tokens[key.value], "replaceCustomer")), s)
    // a miss on a missing id fails and leaves the key unrecorded
    ensures (key.None? || key.value !in s.tokens) && id !in s.store ==>
              r == Step(NotFound(id), s)
    // a miss on a present id stores and returns the new value under the path id
    ensures (key.None? || key.value !in s.tokens) && id in s.store ==>
              && r.result.Ok?
              && r.result.value.operation == "replaceCustomer"
              && r.result.value.customer.id == Some(id)
              && r.result.value.customer.name == newData.name
              && r.result.value.customer.email == newData.email
              && id in r.state.store && r.state.store[id] == r.result.value.customer
              && SameExcept(s.store, r.state.store, id)
              && r.state.tokens == (if key.Some? then s.tokens[key.value := r.result.value.customer] else s.tokens)
    // without a key the idempotency store is never touched
    ensures key.None? ==> r.state.tokens == s.tokens
    ensures Extends(s.tokens, r.state.tokens)
  {
    match CheckIdempotency(s.tokens, key)
    case Some(recorded) => Step(Ok(Reply(recorded, "replaceCustomer")), s)
    case None =>
      if id !in s.store then Step(NotFound(id), s)
      else
        var replaced := WithId(newData, id);
        Step(Ok(Reply(replaced, "replaceCustomer")),
             State(s.store[id := replaced], StoreIdempotency(s.tokens, key, replaced)))
  }

  // ---------------------------------------------------------------------------
  // Sequences of requests

  datatype Request =
    | Create(customer: Customer, freshId: Long)
    | Get(id: Long)
    | GetAll
    | Delete(id: Long)
    | Update(id: Long, partial: Customer)
    | Replace(key: Option<string>, id: Long, newData: Customer)

  /** Only a create needs something of the state: an identifier the repository
      has not used. */
  predicate Enabled(s: State, req: Request) {
    req.Create? ==> req.freshId !in s.store
  }

  /** The state after serving one request. */
  function Apply(s: State, req: Request): (s': State)
    requires Enabled(s, req)
    ensures Extends(s.tokens, s'.tokens)
    ensures Valid(s) ==> Valid(s')
  {
    match req
    case Create(c, freshId) => CreateCustomer(s, c, freshId).state
    case Get(id) => GetCustomer(s, id).state
    case GetAll => s
    case Delete(id) => DeleteCustomer(s, id).state
    case Update(id, partial) => UpdateCustomer(s, id, partial).state
    case Replace(key, id, newData) => ReplaceCustomer(s, key, id, newData).state
  }

  predicate RunEnabled(s: State, reqs: seq<Request>)
    decreases |reqs|
  {
    reqs == [] || (Enabled(s, reqs[0]) && RunEnabled(Apply(s, reqs[0]), reqs[1..]))
  }

  /** The state after serving `reqs` one after another. */
  function Run(s: State, reqs: seq<Request>): State
    requires RunEnabled(s, reqs)
    decreases |reqs|
  {
    if reqs == [] then s else Run(Apply(s, reqs[0]), reqs[1..])
  }

  // ---------------------------------------------------------------------------
  // Properties

  /** First writer wins: once a token is recorded, no sequence of requests
      removes it or changes its value. */
  lemma {:induction false} TokensPersist(s: State, reqs: seq<Request>)
    requires RunEnabled(s, reqs)
    ensures Extends(s.tokens, Run(s, reqs).tokens)
    decreases |reqs|
  {
    if reqs != [] {
      var next := Apply(s, reqs[0]);
      TokensPersist(next, reqs[1..]);
    }
  }

  /** Every reachable state keeps the identifier invariant. */
  lemma {:induction false} RunValid(s: State, reqs: seq<Request>)
    requires Valid(s)
    requires RunEnabled(s, reqs)
    ensures Valid(Run(s, reqs))
    decreases |reqs|
  {
    if reqs != [] {
      RunValid(Apply(s, reqs[0]), reqs[1..]);
    }
  }

  /** A successful replace under a new token is replayed, identically and without
      effect, by any later replace with that token, whatever requests came in
      between: later PATCHes or DELETEs of the customer do not alter the reply. */
  lemma ReplayAfterRun(s: State, token: string, id: Long, newData: Customer,
                       reqs: seq<Request>, id2: Long, newData2: Customer)
    requires token !in s.tokens
    requires ReplaceCustomer(s, Some(token), id, newData).result.Ok?
    requires RunEnabled(ReplaceCustomer(s, Some(token), id, newData).state, reqs)
    ensures var first := ReplaceCustomer(s, Some(token), id, newData);
            var later := Run(first.state, reqs);
            ReplaceCustomer(later, Some(token), id2, newData2) == Step(first.result, later)
  {
    var first := ReplaceCustomer(s, Some(token), id, newData);
    TokensPersist(first.state, reqs);
  }

  /** Two tokenless replaces of the same customer both apply; the second value is
      what remains stored. */
  lemma TokenlessLastWriteWins(s: State, id: Long, a: Customer, b: Customer)
    requires id in s.store
    ensures var first := ReplaceCustomer(s, None, id, a);
            var second := ReplaceCustomer(first.state, None, id, b);
            && first.result == Ok(Reply(WithId(a, id), "replaceCustomer"))
            && second.result == Ok(Reply(WithId(b, id), "replaceCustomer"))
            && second.state.store == s.store[id := WithId(b, id)]
            && second.state.tokens == s.tokens
  {
  }

  /** Two replaces under the same new token with different bodies: both return the
      first body and the store keeps only the first body's effect. */
  lemma KeyedReplaceKeepsFirst(s: State, token: string, id: Long, a: Customer, b: Customer)
    requires token !in s.tokens
    requires id in s.store
    ensures var first := ReplaceCustomer(s, Some(token), id, a);
            var second := ReplaceCustomer(first.state, Some(token), id, b);
            && first.result == second.result
            && second.result == Ok(Reply(WithId(a, id), "replaceCustomer"))
            && second.state.store == s.store[id := WithId(a, id)]
            && second.state.tokens == s.tokens[token := WithId(a, id)]
  {
  }

  /** A PATCH that sets both fields leaves the same store as a tokenless PUT of the
      same body. */
  lemma FullPatchIsReplace(s: State, id: Long, body: Customer)
    requires Valid(s)
    requires body.name.Some? && body.email.Some?
    ensures UpdateCustomer(s, id, body).state == ReplaceCustomer(s, None, id, body).state
    ensures UpdateCustomer(s, id, body).result.Ok? <==> ReplaceCustomer(s, None, id, body).result.Ok?
  {
  }

  /** Applying the same PATCH twice is the same as applying it once. */
  lemma MergeIdempotent(existing: Customer, partial: Customer)
    ensures Merge(Merge(existing, partial), partial) == Merge(existing, partial)
  {
  }

  /** A PATCH whose fields are all null leaves the customer as it was. */
  lemma EmptyPatchKeeps(existing: Customer, id: Option<Long>)
    ensures Merge(existing, Customer(id, None, None)) == existing
  {
  }

  /** A created customer can be read back; a deleted one cannot. */
  lemma CreateThenGet(s: State, c: Customer, freshId: Long)
    requires freshId !in s.store
    ensures var created := CreateCustomer(s, c, freshId);
            GetCustomer(created.state, freshId).result == Ok(Reply(created.result.value, "getCustomer"))
  {
  }

  lemma DeleteThenGet(s: State, id: Long)
    ensures GetCustomer(DeleteCustomer(s, id).state, id).result == NotFound(id)
    ensures DeleteCustomer(DeleteCustomer(s, id).state, id).result == NotFound(id)
  {
  }
}

=== FILE: customers.dfy ===
/** The `Customer` entity and the `Long` identifiers it is stored under. */
module Customers {
  import opened Options

  const MinLong: int := -0x8000_0000_0000_0000
  const MaxLong: int := 0x7FFF_FFFF_FFFF_FFFF

  /** A Java `long`: the type of every customer identifier. */
  type Long = x: int | MinLong <= x <= MaxLong

  /** A customer as the request body and the repository see it: the identifier is
      absent until the repository assigns one, and name and email may be null
      (a PATCH body uses null for "leave this field alone"). */
  datatype Customer = Customer(id: Option<Long>, name: Option<string>, email: Option<string>)

  /** The customer with its identifier set to `id` and every other field kept,
      which is what `setId` does to a request body. */
  function WithId(c: Customer, id: Long): Customer {
    c.(id := Some(id))
  }
}

=== FILE: decimal.dfy ===
/** Decimal rendering of integers as Java's `Long.toString` does it (used when a
    `Long` is concatenated onto a string), and a parser that inverts it. */
module Decimal {
  import opened Options

  predicate IsDigit(c: char) {
    '0' <= c <= '9'
  }

  predicate IsDigits(s: string) {
    forall i :: 0 <= i < |s| ==> IsDigit(s[i])
  }

  function DigitChar(d: nat): (c: char)
    requires d < 10
    ensures IsDigit(c)
  {
    ('0' as int + d) as char
  }

  function DigitValue(c: char): (d: nat)
    requires IsDigit(c)
    ensures d < 10
    ensures DigitChar(d) == c
  {
    c as int - '0' as int
  }

  /** The shortest decimal numeral of `n`: digits only, no leading zero. */
  function NatToString(n: nat): (r: string)
    ensures |r| >= 1
    ensures IsDigits(r)
    ensures r[0] == '0' ==> n == 0
    decreases n
  {
    if n < 10 then [DigitChar(n)] else NatToString(n / 10) + [DigitChar(n % 10)]
  }

  /** The value of a string of decimal digits, most significant first. */
  function DigitsValue(s: string): nat
    requires IsDigits(s)
    decreases |s|
  {
    if s == [] then 0 else DigitsValue(s[..|s| - 1]) * 10 + DigitValue(s[|s| - 1])
  }

  lemma {:induction false} NatRoundTrip(n: nat)
    ensures DigitsValue(NatToString(n)) == n
    decreases n
  {
    if n >= 10 {
      var prefix := NatToString(n / 10);
      var s := prefix + [DigitChar(n % 10)];
      assert s[..|s| - 1] == prefix;
      NatRoundTrip(n / 10);
    }
  }

  /** Reads an optional minus sign followed by one or more digits. */
  function ParseInt(s: string): Option<int> {
    if |s| >= 2 && s[0] == '-' && IsDigits(s[1..]) then Some(-(DigitsValue(s[1..]) as int))
    else if |s| >= 1 && IsDigits(s) then Some(DigitsValue(s))
    else None
  }

  /** `Long.toString`: a minus sign before the magnitude of a negative number.
      The text always reads back as the number it renders. */
  function IntToString(n: int): (r: string)
    ensures ParseInt(r) == Some(n)
    ensures |r| >= 1 && (r[0] == '-' <==> n < 0)
    ensures var digits := if n < 0 then r[1..] else r;
            |digits| >= 1 && IsDigits(digits) && (digits[0] == '0' ==> n == 0)
  {
    if n < 0 then
      NatRoundTrip(-n);
      "-" + NatToString(-n)
    else
      NatRoundTrip(n);
      NatToString(n)
  }

  /** Distinct numbers never render alike. */
  lemma IntToStringInjective(a: int, b: int)
    ensures IntToString(a) == IntToString(b) ==> a == b
  {
  }
}

=== FILE: error_responses.dfy ===
/** The global exception handler: each failure the request layer can raise is
    turned into a response body holding an error label, a message and an HTTP
    status. */
module ErrorResponses {
  import opened Options
  import opened Customers
  import Decimal

  /** One rejected field of a request body; its default message may be null. */
  datatype FieldError = FieldError(field: string, defaultMessage: Option<string>)

  /** The failures the handler distinguishes: a missing customer, a request body
      that failed validation, and any other runtime exception with its optional
      message. */
  datatype Failure =
    | CustomerNotFound(id: Long)
    | ValidationFailed(fieldErrors: seq<FieldError>)
    | Runtime(message: Option<string>)

  /** The three statuses the handler answers with, with their code and reason
      phrase as section 15 of RFC 9110 gives them. */
  datatype HttpStatus = NotFound | BadRequest | InternalServerError {
    function Code(): int {
      match this
      case NotFound => 404
      case BadRequest => 400
      case InternalServerError => 500
    }

    function ReasonPhrase(): string {
      match this
      case NotFound => "Not Found"
      case BadRequest => "Bad Request"
      case InternalServerError => "Internal Server Error"
    }
  }

  /** The message entry is a single string, except for validation failures, where
      it is a list of strings. */
  datatype Message = Text(text: string) | Lines(lines: seq<string>)

  datatype ErrorBody = ErrorBody(error: string, message: Message, status: HttpStatus)

  const NotFoundPrefix: string := "Customer not found: "

  /** The message of `CustomerNotFoundException(id)`: the prefix followed by the
      decimal identifier. */
  function NotFoundMessage(id: Long): (m: string)
    ensures |m| > |NotFoundPrefix| && m[..|NotFoundPrefix|] == NotFoundPrefix
    ensures m[|NotFoundPrefix|..] == Decimal.IntToString(id)
  {
    NotFoundPrefix + Decimal.IntToString(id)
  }

  /** Reads the identifier back out of a not-found message. */
  function IdOfNotFoundMessage(m: string): Option<int> {
    if |m| >= |NotFoundPrefix| && m[..|NotFoundPrefix|] == NotFoundPrefix
    then Decimal.ParseInt(m[|NotFoundPrefix|..])
    else None
  }

  /** The not-found message names the identifier: it can be read back, so no two
      identifiers share a message. */
  lemma NotFoundMessageRoundTrip(id: Long)
    ensures IdOfNotFoundMessage(NotFoundMessage(id)) == Some(id as int)
  {
  }

  /** The message the exception carries for id 42. */
  lemma NotFoundMessage42()
    ensures NotFoundMessage(42) == "Customer not found: 42"
  {
  }

  lemma NotFoundMessageInjective(a: Long, b: Long)
    ensures NotFoundMessage(a) == NotFoundMessage(b) ==> a == b
  {
  }

  // ---------------------------------------------------------------------------
  // Validation messages

  /** Java string concatenation renders a null reference as "null". */
  function Concatenated(s: Option<string>): string {
    s.GetOr("null")
  }

  /** One entry of the validation message: "field: defaultMessage". */
  function FieldLine(e: FieldError): string {
    e.field + ": " + Concatenated(e.defaultMessage)
  }

  /** The validation message, one entry per field error, in order. */
  function FieldLines(errors: seq<FieldError>): (lines: seq<string>)
    ensures |lines| == |errors|
    ensures forall i :: 0 <= i < |errors| ==> lines[i] == FieldLine(errors[i])
    decreases |errors|
  {
    if errors == [] then [] else [FieldLine(errors[0])] + FieldLines(errors[1..])
  }

  /** The index of the first ':' in `s`, or `|s|` when there is none. */
  function FirstColon(s: string): (r: nat)
    ensures r <= |s|
    ensures r < |s| ==> s[r] == ':'
    ensures forall i :: 0 <= i < r ==> s[i] != ':'
    decreases |s|
  {
    if s == [] then 0
    else if s[0] == ':' then 0
    else 1 + FirstColon(s[1..])
  }

  /** Splits an entry at its first ": " into the field and the message text. */
  function SplitFieldLine(line: string): Option<(string, string)> {
    var i := FirstColon(line);
    if i + 2 <= |line| && line[i..i + 2] == ": " then Some((line[..i], line[i + 2..]))
    else None
  }

  /** Field names are property paths and contain no ':'; for them every entry
      splits back into its field and its rendered message. */
  lemma FieldLineRoundTrip(e: FieldError)
    requires forall i :: 0 <= i < |e.field| ==> e.field[i] != ':'
    ensures SplitFieldLine(FieldLine(e)) == Some((e.field, Concatenated(e.defaultMessage)))
  {
    var line := FieldLine(e);
    var n := |e.field|;
    assert line[n] == ':';
    var i := FirstColon(line);
    assert i == n;
    assert line[..n] == e.field;
    assert line[n..n + 2] == ": ";
    assert line[n + 2..] == Concatenated(e.defaultMessage);
  }

  /** A field error without a default message yields "field: null". */
  lemma NullDefaultMessageLine()
    ensures FieldLines([FieldError("name", None), FieldError("email", Some("bad email"))])
         == ["name: null", "email: bad email"]
  {
    var errors := [FieldError("name", None), FieldError("email", Some("bad email"))];
    assert FieldLine(errors[0]) == "name: null";
    assert Concatenated(errors[1].defaultMessage) == "bad email";
    assert FieldLine(errors[1]) == "email: bad email";
  }

  // ---------------------------------------------------------------------------
  // The handlers

  function HandleCustomerNotFound(id: Long): (r: ErrorBody)
    ensures r.status == NotFound && r.error == r.status.ReasonPhrase()
    ensures r.message == Text(NotFoundMessage(id))
    ensures r.message.Text? && IdOfNotFoundMessage(r.message.text) == Some(id as int)
  {
    NotFoundMessageRoundTrip(id);
    ErrorBody("Not Found", Text(NotFoundMessage(id)), NotFound)
  }

  function HandleValidationError(errors: seq<FieldError>): (r: ErrorBody)
    ensures r.status == BadRequest && r.error == r.status.ReasonPhrase()
    ensures r.message.Lines? && |r.message.lines| == |errors|
    ensures forall i :: 0 <= i < |errors| ==> r.message.lines[i] == FieldLine(errors[i])
  {
    ErrorBody("Bad Request", Lines(FieldLines(errors)), BadRequest)
  }

  function HandleRuntimeException(message: Option<string>): (r: ErrorBody)
    ensures r.status == InternalServerError && r.error == r.status.ReasonPhrase()
    ensures message.Some? ==> r.message == Text(message.value)
    ensures message.None? ==> r.message == Text("Unexpected error")
  {
    ErrorBody("Internal Server Error", Text(message.GetOr("Unexpected error")), InternalServerError)
  }

  /** The handler chosen for each failure: the most specific one that applies. */
  function Handle(f: Failure): (r: ErrorBody)
    ensures r.error == r.status.ReasonPhrase()
    ensures f.CustomerNotFound? <==> r.status == NotFound
    ensures f.ValidationFailed? <==> r.status == BadRequest
    ensures f.Runtime? <==> r.status == InternalServerError
    ensures r.message.Lines? <==> f.ValidationFailed?
  {
    match f
    case CustomerNotFound(id) => HandleCustomerNotFound(id)
    case ValidationFailed(errors) => HandleValidationError(errors)
    case Runtime(message) => HandleRuntimeException(message)
  }
}

=== FILE: options.dfy ===
/** Optional values, standing in for the references the Java code allows to be null. */
module Options {

  /** `None` is a null reference; `Some(v)` a reference to `v`. */
  datatype Option<+T> = None | Some(value: T) {

    /** What a null-check-with-fallback yields: the value when there is one,
        `fallback` for null. */
    function GetOr(fallback: T): T {
      if Some? then value else fallback
    }
  }
}

=== FILE: service_responses.dfy ===
/** How the service's failures reach the client through the exception handler. */
module ServiceResponses {
  import opened Customers
  import Decimal
  import CustomerService
  import opened ErrorResponses

  /** The response to a failed service call: a 404 whose message names the
      identifier the service was asked for. */
  lemma ServiceNotFoundResponse(s: CustomerService.State, id: Long)
    requires id !in s.store
    ensures var failed := CustomerService.GetCustomer(s, id).result;
            && failed.NotFound?
            && Handle(CustomerNotFound(failed.id)).status.Code() == 404
            && Handle(CustomerNotFound(failed.id)).message == Text("Customer not found: " + Decimal.IntToString(id))
  {
  }
}
